=== FILE: README.md ===
# Job client of dagster-integration-demo, modelled in Dafny

The repository wraps one small piece of engineering in Dagster glue: the
class `MyResource` of `demo_integration/resources.py`. It submits a project
run to a remote job service and polls the run's status until it completes,
fails, reports a status outside the known vocabulary or times out. Every
HTTP call goes through `make_request`, a loop with a bounded, fixed-delay
retry budget.

This project models that class and proves what it promises.

- `wire.dfy` (module `Wire`) holds the values exchanged with the libraries
  the class calls:
  - decoded JSON (`Json`);
  - what one call of the HTTP library yields (`Exchange`: a
    RequestException, or a reply with its status code, Content-Type and
    decoded body);
  - the request handed to the library (`Request`).
- `resources.dfy` (module `Resources`) holds the client.
  - The class `MyResource` has the four settings of `__init__` and the
    methods `MakeRequest`, `RunProject`, `RunStatus` and `RunAndPoll`.
    `AwaitRun` is the polling loop of `run_and_poll`.
  - Each method is proved equal to a specification function: `Transmit`
    for the request loop, `Poll` and `SubmitAndPoll` for polling.
- `properties.dfy` (module `ResourceProperties`) proves the promises of the
  code about those functions: the retry budget, re-sending, credentials,
  the status decisions, pacing, the timeout, and single submission.

Nothing here performs I/O. The outside world enters as data:
- the HTTP library is a finite sequence of `Exchange`s, one consumed per
  attempt;
- the wall clock is a finite sequence of readings in milliseconds;
- `json.loads` is a function parameter.

What the client does to the world is recorded as a trace of events:
- `Sent`: one request;
- `Backoff`: the sleep of the request loop;
- `StatusSeen`: the status the polling loop reads and logs, with the
  status response it came from;
- `PollWait`: the sleep between status checks.

When an injected sequence runs out before the call is over, the result is
`Err(OutOfInput)`.

Three behaviours of the code a reader may not expect, all reproduced here:
- A successful reply whose Content-Type does not start with
  `application/json` ends neither in a return nor in an exception:
  `make_request` sends the request again. This uses no retry budget and
  does not sleep (`ReissueIsFree`).
- `raise_for_status` turns a 4xx or 5xx reply into a RequestException, so
  such a reply is retried like a network failure.
- The request loop of the submission may send the POST several times when
  it meets RequestExceptions or non-JSON replies. After it succeeds, no POST
  is sent again (`SubmitThenPoll`).

## Model

| member | source | states |
|---|---|---|
| Resources.MyResource.constructor | demo_integration/resources.py:23-36 | The client keeps the given API key, base URL, retry budget (3 by default) and retry delay (250 ms, the 0.25 s default). |
| Resources.Classify | demo_integration/resources.py:71-89 | An exchange uses retry budget exactly when the library raised or the reply was 4xx/5xx. It is sent again for free exactly when a non-error reply has a Content-Type that does not start with `application/json`. It is fatal exactly when such a reply is JSON but its body does not decode, and it is returned exactly when the body decodes, as that body. |
| Resources.Transmit | demo_integration/resources.py:46-91 | The request loop consumes at least one exchange whenever one is left, and never more than it is given. With none left it sends nothing and ends in `OutOfInput`. |
| Resources.Attempt | demo_integration/resources.py:48-89 | One pass of the loop body consumes no more than the exchanges after its own. |
| Resources.MyResource.MakeRequest | demo_integration/resources.py:38-91 | The method's loop returns the result, unused exchanges and events of the request loop `Transmit`, started with no retries used, on the request built from the settings and the call. |
| Resources.MyResource.RunProject | demo_integration/resources.py:93-104 | Submitting is the request loop on a POST to `/anything/{project}/run` with the body `{"runId": "123"}`. |
| Resources.MyResource.RunStatus | demo_integration/resources.py:106-117 | A status check is the request loop on a GET of `/anything/project/{project}/run/{run}` with the query `status=COMPLETED`. |
| Resources.RunIdOf | demo_integration/resources.py:126 | Reading the run id fails only for a missing `data`, a `data` that is not decodable text, or a missing `runId`. Success needs `data` to be a text field of the response object. |
| Resources.StatusOf | demo_integration/resources.py:130 | Reading the status fails only for a missing `args` or a missing `status`. Success needs an `args` field in the response object. |
| Resources.Judge | demo_integration/resources.py:137-146 | A status is invalid exactly when it is not recognised. It is complete exactly when it equals the complete value, even if also terminal. It is failed exactly when recognised, terminal and not complete. Otherwise it is running. |
| Resources.RoundAfter | demo_integration/resources.py:129-159 | A pass that goes on to another status check had a successful status check. A pass leaves exactly its status check's unused exchanges and reads at most the clock it is given. |
| Resources.Poll | demo_integration/resources.py:128-160 | Polling consumes no more exchanges and clock readings than it is given; with no exchange left it sends nothing and ends in `OutOfInput`. What polling decides, how it sleeps, when it reads the clock, how it can run out of input and what it sends are stated by `PollDecision`, `PollPacing`, `PollClock`, `PollRunsOut` and `PollSendsOnlyStatusChecks`. |
| Resources.MyResource.AwaitRun | demo_integration/resources.py:128-160 | The polling loop returns exactly what `Poll` specifies for the submitted run, after the events already recorded. |
| Resources.SubmitAndPoll | demo_integration/resources.py:119-160 | Submitting and polling consume no more exchanges and clock readings than they are given; with no exchange left nothing is sent and the result is `OutOfInput`. How they end is stated by `PolledAfterSubmission`, and single submission by `SubmitThenPoll`. |
| Resources.MyResource.RunAndPoll | demo_integration/resources.py:119-160 | Submitting, decoding the run id, reading the start time and polling returns exactly what `SubmitAndPoll` specifies. |
| ResourceProperties.ExhaustsFrom | demo_integration/resources.py:84-91 | With k retries used and every exchange raising, the loop makes the remaining retries, each followed by one sleep of the retry delay. It then gives up after one more attempt, having consumed exactly those exchanges. |
| ResourceProperties.ExhaustsUnderContinuousFailure | demo_integration/resources.py:84-91 | Under continuous RequestExceptions there are exactly max+1 attempts and max sleeps of the retry delay, then "Exceeded max number of retries.". |
| ResourceProperties.ReissueIsFree | demo_integration/resources.py:72-83 | Any run of non-JSON replies only re-sends the request, once per reply. There is no sleep, and the loop then continues with the retry count it had. |
| ResourceProperties.TransmitOutcome | demo_integration/resources.py:71-91 | When the loop ends on its own, every consumed exchange but the last raised or was non-JSON. The last decides the result: a decoded body is returned, an undecodable JSON body is fatal, a RequestException exhausts the budget. The last event is that attempt, with no sleep after it. |
| ResourceProperties.TransmitRunsOut | demo_integration/resources.py:47-89 | The loop runs out of exchanges only if every one of them raised or was non-JSON, and it then used them all. |
| ResourceProperties.TransmitLeavesSuffix | demo_integration/resources.py:47-91 | The unused exchanges are a suffix of the given ones. |
| ResourceProperties.TransmitEvents | demo_integration/resources.py:47-89 | Every event of the loop is an attempt of the same request or a sleep of the retry delay. |
| ResourceProperties.TransmitFailures | demo_integration/resources.py:38-91 | The loop fails only with "Exceeded max number of retries.", the JSON decoding failure, or running out of input. |
| ResourceProperties.AttemptCounts | demo_integration/resources.py:84-89 | Each consumed exchange is one attempt. The sleeps number the RequestExceptions met, minus one when the budget ran out. |
| ResourceProperties.RetryBudget | demo_integration/resources.py:84-88 | From k retries used, at most max-k+1 RequestExceptions are met, and the loop gives up exactly when that many are met. A negative budget is never exhausted, since the test is `==`. |
| ResourceProperties.AttemptsCarryCredentials | demo_integration/resources.py:42-69 | Every attempt carries exactly `Authorization: Bearer <key>` and `User-Agent: MyDagsterLibrary1.0`, and goes to the base URL and endpoint with the call's method. The data travels as query parameters for GET, as a JSON body for POST, form-encoded otherwise. |
| ResourceProperties.PassTrace | demo_integration/resources.py:129-159 | A pass adds to its status check only the status it read, if any, and one sleep of the poll interval exactly when polling goes on. |
| ResourceProperties.PassSends | demo_integration/resources.py:129-159 | A pass sends nothing but its status check's attempts. |
| ResourceProperties.PassJudged | demo_integration/resources.py:137-157 | A pass that reads a complete status returns the submission response paired with the status response; an unknown status ends in UnexpectedStatus of it; a terminal one in RunFailed of it. In each case that status is the pass's last event. Only a running status lets polling go on or time out. A failed status check reads no status. |
| ResourceProperties.PassClock | demo_integration/resources.py:148-157 | Without a truthy timeout a pass never reads the clock and never times out. With one, a pass that goes on read one reading at or before the deadline. A timeout needs a reading strictly past it, and the elapsed time is the next reading minus the start. |
| ResourceProperties.PassProceeds | demo_integration/resources.py:129-159 | A failed status check, or a response without `args.status`, ends polling with that error. A running status goes on without a truthy timeout, and with one when the clock reads at or before the deadline. A reading strictly past it raises the timeout naming the project, the run, the elapsed time (next reading minus start) and the status. A pass runs out of input only when its status check did or the clock ran out where it was to be read. |
| ResourceProperties.PollDecision | demo_integration/resources.py:128-160 | Every status read but the last was running. The last status decides, in both directions: complete exactly for success, whose output pairs the submission response with the status response that reported completion, the one logged in the last event; unknown exactly for UnexpectedStatus of it; terminal exactly for RunFailed of it. Nothing is sent or slept after that status. A timeout names the last status, which was running, and needs a truthy timeout. Every other failure follows running statuses only. |
| ResourceProperties.PollPacing | demo_integration/resources.py:137-159 | Every poll sleep lasts the poll interval. Ending on a judged status leaves one status more than sleeps. Ending on a failed status check leaves equally many. Running out of input leaves equally many with every exchange used, or, with a truthy timeout, one status more with the clock used up where the next reading was due, so a running status is never left without its sleep otherwise. |
| ResourceProperties.PollClock | demo_integration/resources.py:127-159 | Without a truthy timeout the clock is untouched and polling never times out. With one, each sleep follows a reading at or before the deadline, and a timeout follows the first reading strictly past it. Polling runs out of clock readings only where one was due: before the comparison, or after a reading past the deadline when the message needs one more. |
| ResourceProperties.PollRunsOut | demo_integration/resources.py:128-159 | Polling runs out of input in two ways only: a status check used up every exchange, after one sleep per status read; or, with a truthy timeout, the clock ran out where the pass after a running status was to read it. |
| ResourceProperties.PollSendsOnlyStatusChecks | demo_integration/resources.py:128-159 | Polling sends nothing but GETs of the status path of the submitted run. |
| ResourceProperties.RunIdRoundTrip | demo_integration/resources.py:126 | A response whose `data` text decodes to a document holding `runId` yields that run id, whatever else either holds. |
| ResourceProperties.StatusRoundTrip | demo_integration/resources.py:130 | A response whose `args` holds `status` yields that status, whatever else either holds. |
| ResourceProperties.StatusPathNamesRun | demo_integration/resources.py:108 | Two text run ids of one project share a status path exactly when they are equal. |
| ResourceProperties.SubmitThenPoll | demo_integration/resources.py:125-160 | The submission's request loop comes first. Every later request is a status check of the run id decoded from its response. Every POST belongs to the submission, and the output carries the submission response. |
| ResourceProperties.PolledAfterSubmission | demo_integration/resources.py:119-160 | A failed submission or an unreadable run id ends with exactly that error, and no start reading ends in `OutOfInput`. Otherwise, after the submission's events, the rest is exactly the polling loop of the decoded run id started at the first clock reading, and `Decided`, `Paced`, `Clocked` and `Exhausted` hold of it. |

## Left out

- Logging (`self._log`, `get_dagster_logger`) and the `log` parameter of `__init__`. The status that the polling loop logs appears as a `StatusSeen` event.
- The `requests` library, `raise_for_status` and `response.json()`. One call is an `Exchange`. `raise_for_status` is its rule of rejecting codes 400 to 599.
- `urljoin`. A request keeps the base URL and the endpoint separately.
- `json.loads` is a parameter. A `data` field that is not text is reported as `DataNotJsonText`, like text that does not decode.
- `time.sleep` and `datetime.now()` become events and an injected clock. Seconds as floats become integer milliseconds: the retry delay, the poll interval and the poll timeout.
- Non-termination. With no timeout and a status that stays running, or with endless non-JSON replies, the code loops forever. The model ends with `OutOfInput` when the injected exchanges or clock readings run out. It claims no termination the code lacks.
- `Text` renders a JSON object as the empty string where Python would print its dict repr. This affects only a run id that is itself an object, in the status path.
- A status value that is a JSON object or array is unhashable, so `in VALID_STATUSES` raises TypeError when the vocabulary is a set. The model judges every non-text status as not recognised and ends in `UnexpectedStatus`.
- demo_integration/consts.py is not part of this model. The status vocabulary (`VALID_STATUSES`, `COMPLETE`, `TERMINAL_STATUSES`) is a parameter, and so are the poll defaults. `API_BASE` has no stand-in: the base URL is a required constructor argument.
- The text of `Failure` messages. A failure keeps its kind and the values its message names. The elapsed time of a timeout is an integer number of milliseconds, not a formatted timedelta.
- `cast` and the TypedDict shapes of demo_integration/types.py. `MyOutput` is a pair of JSON values.
- The Dagster resource factory at demo_integration/resources.py:163-199, the ops, assets and repository declarations, and both setup.py files.
- Resources.Attempt: its own contract only bounds the exchanges it consumes; what one pass does is stated by the lemmas about `Transmit`.
- Resources.Attempt: a negative retry delay is not rejected. The program raises ValueError from `time.sleep` at demo_integration/resources.py:89, inside the `except` handler, so nothing catches it. The model records a `Backoff` of that delay and goes on retrying.
- Resources.RoundAfter: a negative poll interval is not rejected. The program raises ValueError from `time.sleep` at demo_integration/resources.py:159 on the first running status that does not time out. The model records a `PollWait` of that interval and polls on.
- Resources.RoundAfter: its own contract only says when polling goes on; the decisions of a pass are stated by `PassJudged`, `PassProceeds`, `PassTrace` and `PassClock`.
- Resources.Poll: its own contract only bounds what polling consumes; its decisions, sleeps, clock readings, ways of running out of input and requests are stated by `PollDecision`, `PollPacing`, `PollClock`, `PollRunsOut` and `PollSendsOnlyStatusChecks`.
- Resources.SubmitAndPoll: its own contract only bounds what it consumes; how it ends, including everything proved about the polling that follows a successful submission, is stated by `PolledAfterSubmission`, and single submission by `SubmitThenPoll`.

=== FILE: properties.dfy ===
/** What the job client of demo_integration/resources.py promises, stated
    about the specification functions of module Resources (and so, through
    their contracts, about the methods of MyResource). */
module ResourceProperties {
  import opened Wire
  import opened Resources

  // ---------------------------------------------------------------------
  // Counting events and exchanges

  predicate IsSent(e: Event) { e.Sent? }
  predicate IsBackoff(e: Event) { e.Backoff? }
  predicate IsWait(e: Event) { e.PollWait? }

  /** How many events of `t` satisfy `p`. */
  function Count(t: seq<Event>, p: Event -> bool): nat
  {
    if t == [] then 0 else (if p(t[0]) then 1 else 0) + Count(t[1..], p)
  }

  lemma {:induction false} CountAppend(a: seq<Event>, b: seq<Event>, p: Event -> bool)
    ensures Count(a + b, p) == Count(a, p) + Count(b, p)
    decreases |a|
  {
    if a != [] {
      assert (a + b)[0] == a[0];
      assert (a + b)[1..] == a[1..] + b;
      CountAppend(a[1..], b, p);
    } else {
      assert a + b == b;
    }
  }

  /** The status values the polling loop saw, in order. */
  function Statuses(t: seq<Event>): seq<Json>
  {
    if t == [] then []
    else (if t[0].StatusSeen? then [t[0].status] else []) + Statuses(t[1..])
  }

  lemma {:induction false} StatusesAppend(a: seq<Event>, b: seq<Event>)
    ensures Statuses(a + b) == Statuses(a) + Statuses(b)
    decreases |a|
  {
    if a != [] {
      assert (a + b)[0] == a[0];
      assert (a + b)[1..] == a[1..] + b;
      StatusesAppend(a[1..], b);
    } else {
      assert a + b == b;
    }
  }

  /** How many exchanges of `s` raise a RequestException. */
  function Transients(s: seq<Exchange>): nat
  {
    if s == [] then 0 else (if Classify(s[0]) == Retry then 1 else 0) + Transients(s[1..])
  }

  // ---------------------------------------------------------------------
  // The request loop

  /** `n` failed attempts, each followed by the retry delay, then the last
      attempt. */
  function Tries(req: Request, delay: int, n: nat): seq<Event>
  {
    if n == 0 then [Sent(req)] else [Sent(req), Backoff(delay)] + Tries(req, delay, n - 1)
  }

  /** `n` attempts with no sleep between them. */
  function Resends(req: Request, n: nat): seq<Event>
  {
    if n == 0 then [] else [Sent(req)] + Resends(req, n - 1)
  }

  lemma {:induction false} TriesCount(req: Request, delay: int, n: nat)
    ensures Count(Tries(req, delay, n), IsSent) == n + 1
    ensures Count(Tries(req, delay, n), IsBackoff) == n
  {
    if n > 0 {
      var t := Tries(req, delay, n - 1);
      TriesCount(req, delay, n - 1);
      CountAppend([Sent(req), Backoff(delay)], t, IsSent);
      CountAppend([Sent(req), Backoff(delay)], t, IsBackoff);
    }
  }

  /** With `k` retries already used and every exchange raising, the loop
      makes the remaining `maxRetries - k` retries, each after the delay, then
      gives up after one more attempt. */
  lemma {:induction false} ExhaustsFrom(c: Config, req: Request, replies: seq<Exchange>, k: int)
    requires 0 <= k <= c.maxRetries < |replies| + k
    requires forall i :: 0 <= i <= c.maxRetries - k ==> Classify(replies[i]) == Retry
    ensures Transmit(c, req, replies, k)
         == Exchanged(Err(RetriesExceeded), replies[c.maxRetries - k + 1..], Tries(req, c.retryDelay, c.maxRetries - k))
    decreases c.maxRetries - k
  {
    if k < c.maxRetries {
      var later := replies[1..];
      forall i | 0 <= i <= c.maxRetries - (k + 1)
        ensures Classify(later[i]) == Retry
      {
        assert later[i] == replies[i + 1];
      }
      ExhaustsFrom(c, req, later, k + 1);
      assert later[c.maxRetries - (k + 1) + 1..] == replies[c.maxRetries - k + 1..];
    }
  }

  /** Under continuous RequestExceptions a request is attempted exactly
      `maxRetries + 1` times with `maxRetries` sleeps of the retry delay
      between them, then fails with "Exceeded max number of retries.". */
  lemma ExhaustsUnderContinuousFailure(c: Config, req: Request, replies: seq<Exchange>)
    requires 0 <= c.maxRetries < |replies|
    requires forall i :: 0 <= i <= c.maxRetries ==> Classify(replies[i]) == Retry
    ensures var o := Transmit(c, req, replies, 0);
      && o.result == Err(RetriesExceeded)
      && o.rest == replies[c.maxRetries + 1..]
      && Count(o.trace, IsSent) == c.maxRetries + 1
      && Count(o.trace, IsBackoff) == c.maxRetries
      && forall i :: 0 <= i < |o.trace| ==> o.trace[i] == Sent(req) || o.trace[i] == Backoff(c.retryDelay)
  {
    ExhaustsFrom(c, req, replies, 0);
    TriesCount(req, c.retryDelay, c.maxRetries);
    TransmitEvents(c, req, replies, 0);
  }

  /** Replies that are not JSON are answered by sending the request again at
      once: no sleep, and the retry budget is left as it was. */
  lemma {:induction false} ReissueIsFree(c: Config, req: Request, junk: seq<Exchange>, more: seq<Exchange>, k: int)
    requires forall i :: 0 <= i < |junk| ==> Classify(junk[i]) == Reissue
    ensures Transmit(c, req, junk + more, k) == Ahead(Resends(req, |junk|), Transmit(c, req, more, k))
    decreases |junk|
  {
    if junk == [] {
      assert junk + more == more;
    } else {
      assert (junk + more)[0] == junk[0];
      assert (junk + more)[1..] == junk[1..] + more;
      ReissueIsFree(c, req, junk[1..], more, k);
      var o := Transmit(c, req, more, k);
      assert [Sent(req)] + (Resends(req, |junk| - 1) + o.trace) == Resends(req, |junk|) + o.trace;
    }
  }

  /** What one attempt leads to: the first attempt of the loop is followed
      by the rest of the loop on the remaining exchanges, with its retry count
      moved on by one when the exchange raised. */
  function Next(retries: int, v: Verdict): int
  {
    if v == Retry then retries + 1 else retries
  }

  lemma Unroll(c: Config, req: Request, replies: seq<Exchange>, k: int)
    requires replies != []
    ensures var v := Classify(replies[0]);
      var o := Transmit(c, req, replies, k);
      var later := Transmit(c, req, replies[1..], Next(k, v));
      && ((v == Retry && k == c.maxRetries) || v.Garbled? || v.Decoded? ==>
            o.rest == replies[1..] && o.trace == [Sent(req)]
            && o.result == (if v == Retry then Err(RetriesExceeded)
                            else if v.Garbled? then Err(UndecodableResponse) else Ok(v.body)))
      && (v == Retry && k != c.maxRetries ==> o == Ahead([Sent(req), Backoff(c.retryDelay)], later))
      && (v == Reissue ==> o == Ahead([Sent(req)], later))
  {
  }

  /** The request loop leaves a suffix of the exchanges unused. */
  lemma {:induction false} TransmitLeavesSuffix(c: Config, req: Request, replies: seq<Exchange>, k: int)
    ensures var o := Transmit(c, req, replies, k);
      o.rest == replies[|replies| - |o.rest|..]
    decreases |replies|
  {
    if replies != [] {
      var v := Classify(replies[0]);
      Unroll(c, req, replies, k);
      if (v == Retry && k != c.maxRetries) || v == Reissue {
        TransmitLeavesSuffix(c, req, replies[1..], Next(k, v));
      }
    }
  }

  /** Every event of the request loop is an attempt of the same request or a
      sleep of the retry delay. */
  lemma {:induction false} TransmitEvents(c: Config, req: Request, replies: seq<Exchange>, k: int)
    ensures var t := Transmit(c, req, replies, k).trace;
      forall i :: 0 <= i < |t| ==> t[i] == Sent(req) || t[i] == Backoff(c.retryDelay)
    decreases |replies|
  {
    if replies != [] {
      var v := Classify(replies[0]);
      Unroll(c, req, replies, k);
      if (v == Retry && k != c.maxRetries) || v == Reissue {
        TransmitEvents(c, req, replies[1..], Next(k, v));
      }
    }
  }

  lemma TransmitSendsOnly(c: Config, req: Request, replies: seq<Exchange>, k: int)
    ensures SendsOnly(Transmit(c, req, replies, k).trace, req)
    ensures Quiet(Transmit(c, req, replies, k).trace)
  {
    var t := Transmit(c, req, replies, k).trace;
    TransmitEvents(c, req, replies, k);
    forall i | 0 <= i < |Transmit(c, req, replies, k).trace|
      ensures t[i].Sent? || t[i].Backoff?
      ensures t[i].Sent? ==> t[i].req == req
    {
      assert Transmit(c, req, replies, k).trace[i] == Sent(req)
          || Transmit(c, req, replies, k).trace[i] == Backoff(c.retryDelay);
    }
  }

  /** How the request loop ends when it ends on its own. Every exchange but
      the last one it consumed raised or was not JSON, and the last one
      decides the outcome: a decoded JSON reply is returned, a JSON reply that
      does not decode is fatal, a RequestException means the budget ran out.
      The last event is then that attempt: no sleep follows it. */
  lemma {:induction false} TransmitOutcome(c: Config, req: Request, replies: seq<Exchange>, k: int)
    ensures var o := Transmit(c, req, replies, k);
      var n := |replies| - |o.rest|;
      o.result != Err(OutOfInput) ==>
        && 1 <= n
        && (forall i :: 0 <= i < n - 1 ==> Classify(replies[i]).Retry? || Classify(replies[i]).Reissue?)
        && (o.result.Ok? <==> Classify(replies[n - 1]).Decoded?)
        && (o.result.Ok? ==> o.result.value == Classify(replies[n - 1]).body)
        && (o.result == Err(UndecodableResponse) <==> Classify(replies[n - 1]) == Garbled)
        && (o.result == Err(RetriesExceeded) <==> Classify(replies[n - 1]) == Retry)
        && o.trace != [] && o.trace[|o.trace| - 1] == Sent(req)
    decreases |replies|
  {
    if replies != [] {
      var v := Classify(replies[0]);
      Unroll(c, req, replies, k);
      if (v == Retry && k != c.maxRetries) || v == Reissue {
        var later := replies[1..];
        TransmitOutcome(c, req, later, Next(k, v));
        forall i | 0 <= i < |later|
          ensures later[i] == replies[i + 1]
        {
        }
      }
    }
  }

  /** The request loop runs out of exchanges only when every one of them
      raised or was not JSON, and then it has used them all. */
  lemma {:induction false} TransmitRunsOut(c: Config, req: Request, replies: seq<Exchange>, k: int)
    ensures var o := Transmit(c, req, replies, k);
      o.result == Err(OutOfInput) ==>
        && o.rest == []
        && forall i :: 0 <= i < |replies| ==> Classify(replies[i]).Retry? || Classify(replies[i]).Reissue?
    decreases |replies|
  {
    if replies != [] {
      var v := Classify(replies[0]);
      Unroll(c, req, replies, k);
      if (v == Retry && k != c.maxRetries) || v == Reissue {
        var later := replies[1..];
        TransmitRunsOut(c, req, later, Next(k, v));
        forall i | 0 <= i < |later|
          ensures later[i] == replies[i + 1]
        {
        }
      }
    }
  }

  /** Each exchange consumed is one attempt, and every RequestException but
      one that exhausts the budget is followed by a sleep. */
  lemma {:induction false} AttemptCounts(c: Config, req: Request, replies: seq<Exchange>, k: int)
    ensures var o := Transmit(c, req, replies, k);
      var used := replies[..|replies| - |o.rest|];
      && Count(o.trace, IsSent) == |used|
      && Count(o.trace, IsBackoff) + (if o.result == Err(RetriesExceeded) then 1 else 0) == Transients(used)
    decreases |replies|
  {
    var o := Transmit(c, req, replies, k);
    var used := replies[..|replies| - |o.rest|];
    if replies == [] {
      assert used == [];
    } else {
      var v := Classify(replies[0]);
      Unroll(c, req, replies, k);
      if (v == Retry && k != c.maxRetries) || v == Reissue {
        var k' := Next(k, v);
        var later := Transmit(c, req, replies[1..], k');
        var head := if v == Retry then [Sent(req), Backoff(c.retryDelay)] else [Sent(req)];
        AttemptCounts(c, req, replies[1..], k');
        assert used == [replies[0]] + replies[1..][..|replies| - 1 - |later.rest|];
        CountAppend(head, later.trace, IsSent);
        CountAppend(head, later.trace, IsBackoff);
      } else {
        assert used == [replies[0]];
      }
    }
  }

  /** The retry budget: from `k` retries used, at most `maxRetries - k + 1`
      RequestExceptions are met, and the loop gives up exactly when that many
      have been met. A budget already passed (a negative maxRetries) is never
      exhausted, since the loop compares the count for equality. */
  lemma {:induction false} RetryBudget(c: Config, req: Request, replies: seq<Exchange>, k: int)
    ensures var o := Transmit(c, req, replies, k);
      var used := replies[..|replies| - |o.rest|];
      && (k <= c.maxRetries ==> Transients(used) <= c.maxRetries - k + 1)
      && (k <= c.maxRetries ==> (o.result == Err(RetriesExceeded) <==> Transients(used) == c.maxRetries - k + 1))
      && (k > c.maxRetries ==> o.result != Err(RetriesExceeded))
    decreases |replies|
  {
    var o := Transmit(c, req, replies, k);
    var used := replies[..|replies| - |o.rest|];
    if replies == [] {
      assert used == [];
    } else {
      var v := Classify(replies[0]);
      Unroll(c, req, replies, k);
      if (v == Retry && k != c.maxRetries) || v == Reissue {
        var k' := Next(k, v);
        var later := Transmit(c, req, replies[1..], k');
        RetryBudget(c, req, replies[1..], k');
        assert used == [replies[0]] + replies[1..][..|replies| - 1 - |later.rest|];
      } else {
        assert used == [replies[0]];
      }
    }
  }

  /** Every attempt carries the credentials and the User-Agent, goes to the
      configured service with the call's method and endpoint, and sends the
      call's data as query parameters for GET, as a JSON body for POST and
      form-encoded for any other method. */
  lemma AttemptsCarryCredentials(c: Config, call: Call, replies: seq<Exchange>, k: int)
    ensures var t := Transmit(c, BuildRequest(c, call), replies, k).trace;
      forall i :: 0 <= i < |t| && t[i].Sent? ==>
        var r := t[i].req;
        && r.headers.Keys == {"Authorization", "User-Agent"}
        && r.headers["Authorization"] == "Bearer " + c.apiKey
        && r.headers["User-Agent"] == "MyDagsterLibrary1.0"
        && r.httpMethod == call.httpMethod && r.baseUrl == c.baseUrl && r.endpoint == call.endpoint
        && (call.httpMethod == "GET" ==> r.payload == Params(call.data))
        && (call.httpMethod == "POST" ==> r.payload == JsonBody(call.data))
        && (call.httpMethod != "GET" && call.httpMethod != "POST" ==> r.payload == FormBody(call.data))
  {
    TransmitEvents(c, BuildRequest(c, call), replies, k);
  }

  /** The only ways the request loop fails. */
  predicate LoopFailure(o: Exchanged)
  {
    o.result.Err? ==> o.result.error in {RetriesExceeded, UndecodableResponse, OutOfInput}
  }

  lemma {:induction false} TransmitFailures(c: Config, req: Request, replies: seq<Exchange>, k: int)
    ensures LoopFailure(Transmit(c, req, replies, k))
    decreases |replies|
  {
    if replies != [] {
      var v := Classify(replies[0]);
      Unroll(c, req, replies, k);
      if (v == Retry && k != c.maxRetries) || v == Reissue {
        TransmitFailures(c, req, replies[1..], Next(k, v));
      }
    }
  }

  // ---------------------------------------------------------------------
  // One pass of the polling loop

  /** A trace of the request loop alone: attempts and retry sleeps. */
  predicate Quiet(t: seq<Event>)
  {
    forall i :: 0 <= i < |t| ==> t[i].Sent? || t[i].Backoff?
  }

  /** Every request sent in `t` is `req`. */
  predicate SendsOnly(t: seq<Event>, req: Request)
  {
    forall i :: 0 <= i < |t| && t[i].Sent? ==> t[i].req == req
  }

  lemma {:induction false} QuietTrace(t: seq<Event>)
    requires Quiet(t)
    ensures Statuses(t) == [] && Count(t, IsWait) == 0
    decreases |t|
  {
    if t != [] {
      QuietTrace(t[1..]);
    }
  }

  /** The status a pass reads, if its status check succeeded and the
      response holds one. */
  function ReadStatus(got: Exchanged): Option<Json>
  {
    if got.result.Ok? && StatusOf(got.result.value).Ok? then Some(StatusOf(got.result.value).value) else None
  }

  /** The event that logs the status a pass reads, with its response. */
  function Seen(got: Exchanged): Option<Event>
  {
    if ReadStatus(got).Some? then Some(StatusSeen(ReadStatus(got).value, got.result.value)) else None
  }

  /** The events a pass adds after its status check: the status it read,
      if any, then one sleep of the poll interval exactly when polling goes
      on. */
  function PassTail(seen: Option<Event>, again: bool, interval: int): seq<Event>
  {
    if seen.None? then []
    else [seen.value] + (if again then [PollWait(interval)] else [])
  }

  lemma PassEvents(vocab: Vocabulary, job: PollJob, got: Exchanged, clock: seq<int>)
    ensures var r := RoundAfter(vocab, job, got, clock);
      r.trace == got.trace + PassTail(Seen(got), r.Again?, job.interval)
      && (ReadStatus(got).None? ==> r.Stop?)
  {
  }

  lemma TailFacts(g: seq<Event>, seen: Option<Event>, again: bool, interval: int)
    requires Quiet(g) && (seen.None? ==> !again) && (seen.Some? ==> seen.value.StatusSeen?)
    ensures var t := g + PassTail(seen, again, interval);
      && |g| <= |t| && t[..|g|] == g
      && (forall i :: |g| <= i < |t| ==> t[i].StatusSeen? || t[i] == PollWait(interval))
      && Statuses(t) == (if seen.Some? then [seen.value.status] else [])
      && Count(t, IsWait) == (if again then 1 else 0)
  {
    QuietTrace(g);
    var tail := PassTail(seen, again, interval);
    StatusesAppend(g, tail);
    CountAppend(g, tail, IsWait);
    assert (g + tail)[..|g|] == g;
    if seen.Some? {
      StatusesAppend([seen.value], tail[1..]);
      CountAppend([seen.value], tail[1..], IsWait);
      assert tail == [seen.value] + tail[1..];
    } else {
      assert g + tail == g;
    }
  }

  /** What a pass adds to the trace of its status check: the status it read,
      if any, and one sleep of the poll interval exactly when polling goes
      on. */
  lemma PassTrace(vocab: Vocabulary, job: PollJob, got: Exchanged, clock: seq<int>)
    requires Quiet(got.trace)
    ensures var r := RoundAfter(vocab, job, got, clock);
      && |got.trace| <= |r.trace| && r.trace[..|got.trace|] == got.trace
      && (forall i :: |got.trace| <= i < |r.trace| ==> r.trace[i].StatusSeen? || r.trace[i] == PollWait(job.interval))
      && Statuses(r.trace) == (if ReadStatus(got).Some? then [ReadStatus(got).value] else [])
      && Count(r.trace, IsWait) == (if r.Again? then 1 else 0)
  {
    var r := RoundAfter(vocab, job, got, clock);
    PassEvents(vocab, job, got, clock);
    TailFacts(got.trace, Seen(got), r.Again?, job.interval);
  }

  /** A pass sends nothing but the attempts of its status check. */
  lemma PassSends(vocab: Vocabulary, job: PollJob, got: Exchanged, clock: seq<int>, req: Request)
    requires SendsOnly(got.trace, req)
    ensures SendsOnly(RoundAfter(vocab, job, got, clock).trace, req)
  {
    var r := RoundAfter(vocab, job, got, clock);
    var tail := PassTail(Seen(got), r.Again?, job.interval);
    PassEvents(vocab, job, got, clock);
    assert forall i :: |got.trace| <= i < |r.trace| ==> r.trace[i] == tail[i - |got.trace|];
  }

  /** One pass judged by the status it read: an unknown status, completion
      and a terminal status end polling at once, with that status as the
      pass's last event; only a running status lets
      polling go on or time out. A failed status check ends polling without
      reading a status. */
  lemma PassJudged(vocab: Vocabulary, job: PollJob, got: Exchanged, clock: seq<int>)
    requires LoopFailure(got)
    ensures var r := RoundAfter(vocab, job, got, clock);
      var st := ReadStatus(got);
      && (r.Again? ==> st.Some? && Judge(vocab, st.value).Running?)
      && (r.Stop? && r.result.Ok? ==>
            && st.Some? && Judge(vocab, st.value) == Completed
            && r.result.value.runResponse == job.runResponse
            && StatusOf(r.result.value.statusResponse) == Ok(st.value))
      && (r.Stop? && r.result.Err? && r.result.error.UnexpectedStatus? ==>
            st == Some(r.result.error.status) && Judge(vocab, st.value) == Invalid)
      && (r.Stop? && r.result.Err? && r.result.error.RunFailed? ==>
            st == Some(JStr(r.result.error.name)) && Judge(vocab, st.value) == Failed(r.result.error.name))
      && (r.Stop? && r.result.Err? && r.result.error.TimedOut? ==>
            && st == Some(JStr(r.result.error.lastStatus))
            && Judge(vocab, st.value) == Running(r.result.error.lastStatus)
            && r.result.error.projectId == job.projectId && r.result.error.runId == job.runId)
      && (r.Stop? && r.result.Err? && r.result.error in {RetriesExceeded, UndecodableResponse, DataNotJsonText} ==> st.None?)
      && (r.Stop? && r.result.Err? && r.result.error.MissingField? ==> st.None?)
      && (r.Stop? && r.result == Err(OutOfInput) && st.Some? ==> Judge(vocab, st.value).Running?)
      && (st.Some? && Judge(vocab, st.value) == Completed ==>
            && r.Stop? && r.result == Ok(MyOutput(job.runResponse, got.result.value))
            && r.trace == got.trace + [StatusSeen(st.value, got.result.value)])
      && (st.Some? && Judge(vocab, st.value) == Invalid ==>
            r.Stop? && r.result == Err(UnexpectedStatus(st.value)) && r.trace == got.trace + [StatusSeen(st.value, got.result.value)])
      && (st.Some? && Judge(vocab, st.value).Failed? ==>
            && r.Stop? && r.result == Err(RunFailed(Judge(vocab, st.value).name))
            && r.trace == got.trace + [StatusSeen(st.value, got.result.value)])
  {
  }

  /** The deadline of a truthy timeout: the start reading plus the timeout. */
  function Deadline(job: PollJob): int
  {
    if job.timeout.Some? then job.start + job.timeout.value else job.start
  }

  /** When the clock is read in one pass: never without a truthy timeout;
      with one, once per running status, and a second time for the message
      when the first reading is strictly past the deadline. */
  lemma PassClock(vocab: Vocabulary, job: PollJob, got: Exchanged, clock: seq<int>)
    requires LoopFailure(got)
    ensures var r := RoundAfter(vocab, job, got, clock);
      && (!TimeoutSet(job.timeout) ==> r.clock == clock && !(r.Stop? && r.result.Err? && r.result.error.TimedOut?))
      && (TimeoutSet(job.timeout) && r.Again? ==> clock != [] && clock[0] <= Deadline(job) && r.clock == clock[1..])
      && (TimeoutSet(job.timeout) && r.Stop? && r.result.Err? && r.result.error.TimedOut? ==>
            |clock| >= 2 && clock[0] > Deadline(job) && r.result.error.elapsed == clock[1] - job.start && r.clock == clock[2..])
      && (r.Stop? && r.result != Err(OutOfInput) && !(r.result.Err? && r.result.error.TimedOut?) ==> r.clock == clock)
  {
  }

  /** What makes a pass go on, time out or stop early. A failed status check,
      and a status response without a status, end polling with that error.
      A running status lets polling go on without a truthy timeout, and with
      one when the clock reads at or before the deadline; a reading strictly
      past the deadline raises the timeout, whose elapsed time is the next
      reading minus the start. A pass runs out of input only when its status
      check did, or when the clock ran out where it was to be read. */
  lemma PassProceeds(vocab: Vocabulary, job: PollJob, got: Exchanged, clock: seq<int>)
    ensures var r := RoundAfter(vocab, job, got, clock);
      var st := ReadStatus(got);
      && (got.result.Err? ==> r == Stop(Err(got.result.error), got.rest, clock, got.trace))
      && (got.result.Ok? && StatusOf(got.result.value).Err? ==>
            r == Stop(Err(StatusOf(got.result.value).error), got.rest, clock, got.trace))
      && (st.Some? && Judge(vocab, st.value).Running? ==>
            && (!TimeoutSet(job.timeout) ==> r.Again? && r.clock == clock)
            && (TimeoutSet(job.timeout) && clock != [] && clock[0] <= Deadline(job) ==>
                  r.Again? && r.clock == clock[1..])
            && (TimeoutSet(job.timeout) && |clock| >= 2 && clock[0] > Deadline(job) ==>
                  && r.Stop? && r.clock == clock[2..]
                  && r.result == Err(TimedOut(job.projectId, job.runId, clock[1] - job.start, Judge(vocab, st.value).name))))
      && (r.Stop? && r.result == Err(OutOfInput) ==>
            || got.result == Err(OutOfInput)
            || (TimeoutSet(job.timeout) && r.clock == [] && (clock == [] || (clock[0] > Deadline(job) && |clock| < 2))))
  {
  }

  // ---------------------------------------------------------------------
  // The polling loop

  /** The status check of a pass is a request loop: it only sends and sleeps,
      and it fails only as a request loop does. */
  lemma CheckFacts(c: Config, job: PollJob, replies: seq<Exchange>)
    ensures Quiet(StatusCheck(c, job, replies).trace)
    ensures SendsOnly(StatusCheck(c, job, replies).trace, BuildRequest(c, StatusCall(job.projectId, job.runId)))
    ensures LoopFailure(StatusCheck(c, job, replies))
    ensures StatusCheck(c, job, replies).result == Err(OutOfInput) ==> StatusCheck(c, job, replies).rest == []
  {
    var req := BuildRequest(c, StatusCall(job.projectId, job.runId));
    TransmitSendsOnly(c, req, replies, 0);
    TransmitFailures(c, req, replies, 0);
    TransmitRunsOut(c, req, replies, 0);
    assert StatusCheck(c, job, replies) == Transmit(c, req, replies, 0);
  }

  /** Polling is its first pass, then, if that pass goes on, polling again
      on what is left. */
  lemma PollUnroll(c: Config, vocab: Vocabulary, job: PollJob, replies: seq<Exchange>, clock: seq<int>)
    ensures var r := RoundAfter(vocab, job, StatusCheck(c, job, replies), clock);
      && (r.Stop? ==> Poll(c, vocab, job, replies, clock) == Polled(r.result, r.rest, r.clock, r.trace))
      && (r.Again? ==>
            && |r.rest| < |replies|
            && Poll(c, vocab, job, replies, clock) == Resume(r.trace, Poll(c, vocab, job, r.rest, r.clock)))
  {
  }

  /** How polling ended, judged by the statuses it read (see PollDecision). */
  predicate Decided(vocab: Vocabulary, job: PollJob, p: Polled)
  {
    var s := Statuses(p.trace);
    && (forall i :: 0 <= i < |s| - 1 ==> Judge(vocab, s[i]).Running?)
    && (p.result.Ok? ==>
          && s != [] && Judge(vocab, s[|s| - 1]) == Completed
          && p.result.value.runResponse == job.runResponse
          && StatusOf(p.result.value.statusResponse) == Ok(s[|s| - 1]))
    && (p.result.Err? && p.result.error.UnexpectedStatus? ==>
          s != [] && s[|s| - 1] == p.result.error.status && Judge(vocab, s[|s| - 1]) == Invalid)
    && (p.result.Err? && p.result.error.RunFailed? ==>
          s != [] && s[|s| - 1] == JStr(p.result.error.name)
          && Judge(vocab, s[|s| - 1]) == Failed(p.result.error.name))
    && (p.result.Err? && p.result.error.TimedOut? ==>
          && s != [] && s[|s| - 1] == JStr(p.result.error.lastStatus)
          && Judge(vocab, s[|s| - 1]) == Running(p.result.error.lastStatus)
          && TimeoutSet(job.timeout)
          && p.result.error.projectId == job.projectId && p.result.error.runId == job.runId)
    && (p.result.Err? && (p.result.error in {RetriesExceeded, UndecodableResponse, OutOfInput, DataNotJsonText}
                          || p.result.error.MissingField?) ==>
          forall i :: 0 <= i < |s| ==> Judge(vocab, s[i]).Running?)
    && (s != [] && Judge(vocab, s[|s| - 1]) == Completed ==> p.result.Ok?)
    && (s != [] && Judge(vocab, s[|s| - 1]) == Invalid ==> p.result == Err(UnexpectedStatus(s[|s| - 1])))
    && (s != [] && Judge(vocab, s[|s| - 1]).Failed? ==> p.result == Err(RunFailed(Judge(vocab, s[|s| - 1]).name)))
    && (p.result.Ok? || (p.result.Err? && (p.result.error.UnexpectedStatus? || p.result.error.RunFailed?)) ==>
          && s != [] && p.trace != []
          && p.trace[|p.trace| - 1].StatusSeen? && p.trace[|p.trace| - 1].status == s[|s| - 1])
    && (p.result.Ok? ==>
          p.trace != [] && p.trace[|p.trace| - 1] == StatusSeen(s[|s| - 1], p.result.value.statusResponse))
  }

  lemma StopDecided(vocab: Vocabulary, job: PollJob, got: Exchanged, clock: seq<int>)
    requires Quiet(got.trace) && LoopFailure(got)
    ensures var r := RoundAfter(vocab, job, got, clock);
      r.Stop? ==> Decided(vocab, job, Polled(r.result, r.rest, r.clock, r.trace))
  {
    PassTrace(vocab, job, got, clock);
    PassJudged(vocab, job, got, clock);
    PassClock(vocab, job, got, clock);
  }

  /** A pass that read one running status, followed by decided polling,
      is decided polling. */
  lemma DecidedAfter(vocab: Vocabulary, job: PollJob, pre: seq<Event>, later: Polled)
    requires |Statuses(pre)| == 1 && Judge(vocab, Statuses(pre)[0]).Running?
    requires Decided(vocab, job, later)
    ensures Decided(vocab, job, Resume(pre, later))
  {
    StatusesAppend(pre, later.trace);
    var t := pre + later.trace;
    assert forall i :: |pre| <= i < |t| ==> t[i] == later.trace[i - |pre|];
  }

  lemma AgainDecided(vocab: Vocabulary, job: PollJob, got: Exchanged, clock: seq<int>, later: Polled)
    requires Quiet(got.trace) && LoopFailure(got) && Decided(vocab, job, later)
    ensures var r := RoundAfter(vocab, job, got, clock);
      r.Again? ==> Decided(vocab, job, Resume(r.trace, later))
  {
    var r := RoundAfter(vocab, job, got, clock);
    if r.Again? {
      PassTrace(vocab, job, got, clock);
      PassJudged(vocab, job, got, clock);
      DecidedAfter(vocab, job, r.trace, later);
    }
  }

  /** How polling ends, judged by the statuses it read. Every status but the
      last one was a running status. Success means the last status read was
      the complete status, and the output pairs the submission response with
      the response that reported it. An unknown status, a terminal status and
      the timeout each end polling on the status they name, which is the last
      one read; the timeout only with a truthy timeout and on a running
      status. Conversely, a last status that is complete, unknown or terminal
      ends polling with the output, UnexpectedStatus or RunFailed, and it is
      the last event: no request and no sleep follow it. On success that
      event logs the very status response the output carries. A status check that
      fails ends polling after running statuses only. */
  lemma {:induction false} PollDecision(c: Config, vocab: Vocabulary, job: PollJob, replies: seq<Exchange>, clock: seq<int>)
    ensures Decided(vocab, job, Poll(c, vocab, job, replies, clock))
    decreases |replies|
  {
    var got := StatusCheck(c, job, replies);
    var r := RoundAfter(vocab, job, got, clock);
    CheckFacts(c, job, replies);
    PollUnroll(c, vocab, job, replies, clock);
    if r.Again? {
      PollDecision(c, vocab, job, r.rest, r.clock);
      AgainDecided(vocab, job, got, clock, Poll(c, vocab, job, r.rest, r.clock));
    } else {
      StopDecided(vocab, job, got, clock);
    }
  }

  /** The sleeps of polling (see PollPacing). */
  predicate Paced(job: PollJob, p: Polled)
  {
    var n := |Statuses(p.trace)|;
    var w := Count(p.trace, IsWait);
    && (forall i :: 0 <= i < |p.trace| && p.trace[i].PollWait? ==> p.trace[i] == PollWait(job.interval))
    && w <= n <= w + 1
    && (p.result.Ok? || (p.result.Err? && (p.result.error.UnexpectedStatus? || p.result.error.RunFailed? || p.result.error.TimedOut?))
        ==> n == w + 1)
    && (p.result.Err? && (p.result.error in {RetriesExceeded, UndecodableResponse} || p.result.error.MissingField?)
        ==> n == w)
  }

  lemma StopPaced(vocab: Vocabulary, job: PollJob, got: Exchanged, clock: seq<int>)
    requires Quiet(got.trace) && LoopFailure(got)
    ensures var r := RoundAfter(vocab, job, got, clock);
      r.Stop? ==> Paced(job, Polled(r.result, r.rest, r.clock, r.trace))
  {
    var r := RoundAfter(vocab, job, got, clock);
    PassTrace(vocab, job, got, clock);
    PassJudged(vocab, job, got, clock);
    assert forall i :: 0 <= i < |got.trace| ==> r.trace[i] == got.trace[i];
  }

  /** A pass that read one status and slept the poll interval once,
      followed by paced polling, is paced polling. */
  lemma PacedAfter(job: PollJob, pre: seq<Event>, later: Polled)
    requires forall i :: 0 <= i < |pre| && pre[i].PollWait? ==> pre[i] == PollWait(job.interval)
    requires |Statuses(pre)| == 1 && Count(pre, IsWait) == 1
    requires Paced(job, later)
    ensures Paced(job, Resume(pre, later))
  {
    StatusesAppend(pre, later.trace);
    CountAppend(pre, later.trace, IsWait);
    var t := pre + later.trace;
    assert forall i :: |pre| <= i < |t| ==> t[i] == later.trace[i - |pre|];
  }

  lemma AgainPaced(vocab: Vocabulary, job: PollJob, got: Exchanged, clock: seq<int>, later: Polled)
    requires Quiet(got.trace) && LoopFailure(got) && Paced(job, later)
    ensures var r := RoundAfter(vocab, job, got, clock);
      r.Again? ==> Paced(job, Resume(r.trace, later))
  {
    var r := RoundAfter(vocab, job, got, clock);
    if r.Again? {
      PassTrace(vocab, job, got, clock);
      PassEvents(vocab, job, got, clock);
      assert forall i :: 0 <= i < |got.trace| ==> r.trace[i] == got.trace[i];
      PacedAfter(job, r.trace, later);
    }
  }

  /** One sleep of the poll interval per running status that did not time
      out: polling that ends on a status it judged has slept once less than
      it read statuses, and polling that ends on a failed status check has
      slept once per status read. Polling runs out of input only as
      `Exhausted` allows, so it never stops short of the sleep that follows a
      running status. */
  lemma {:induction false} PollPacing(c: Config, vocab: Vocabulary, job: PollJob, replies: seq<Exchange>, clock: seq<int>)
    ensures Paced(job, Poll(c, vocab, job, replies, clock))
    ensures Exhausted(job, clock, Poll(c, vocab, job, replies, clock))
    decreases |replies|
  {
    PollRunsOut(c, vocab, job, replies, clock);
    var got := StatusCheck(c, job, replies);
    var r := RoundAfter(vocab, job, got, clock);
    CheckFacts(c, job, replies);
    PollUnroll(c, vocab, job, replies, clock);
    if r.Again? {
      PollPacing(c, vocab, job, r.rest, r.clock);
      AgainPaced(vocab, job, got, clock, Poll(c, vocab, job, r.rest, r.clock));
    } else {
      StopPaced(vocab, job, got, clock);
    }
  }

  /** The clock readings of polling from `clock` on (see PollClock). */
  predicate Clocked(job: PollJob, clock: seq<int>, p: Polled)
  {
    var w := Count(p.trace, IsWait);
    var timedOut := p.result.Err? && p.result.error.TimedOut?;
    && (!TimeoutSet(job.timeout) ==> p.clock == clock && !timedOut)
    && (TimeoutSet(job.timeout) ==>
          && w <= |clock|
          && (forall i :: 0 <= i < w ==> clock[i] <= Deadline(job))
          && (timedOut ==>
                && w + 2 <= |clock| && clock[w] > Deadline(job)
                && p.result.error.elapsed == clock[w + 1] - job.start
                && p.clock == clock[w + 2..])
          && (p.result != Err(OutOfInput) && !timedOut ==> p.clock == clock[w..]))
  }

  lemma StopClocked(vocab: Vocabulary, job: PollJob, got: Exchanged, clock: seq<int>)
    requires Quiet(got.trace) && LoopFailure(got)
    ensures var r := RoundAfter(vocab, job, got, clock);
      r.Stop? ==> Clocked(job, clock, Polled(r.result, r.rest, r.clock, r.trace))
  {
    PassTrace(vocab, job, got, clock);
    PassClock(vocab, job, got, clock);
  }

  lemma AgainClocked(vocab: Vocabulary, job: PollJob, got: Exchanged, clock: seq<int>, later: Polled)
    requires Quiet(got.trace) && LoopFailure(got)
    requires Clocked(job, RoundAfter(vocab, job, got, clock).clock, later)
    ensures var r := RoundAfter(vocab, job, got, clock);
      r.Again? ==> Clocked(job, clock, Resume(r.trace, later))
  {
    var r := RoundAfter(vocab, job, got, clock);
    if r.Again? {
      PassTrace(vocab, job, got, clock);
      PassClock(vocab, job, got, clock);
      CountAppend(r.trace, later.trace, IsWait);
      if TimeoutSet(job.timeout) {
        assert forall i :: 0 <= i < |r.clock| ==> r.clock[i] == clock[i + 1];
      }
    }
  }

  /** The clock and the timeout. Without a truthy timeout the clock is never
      read and polling never times out. With one, each pass that sleeps read
      the clock once and found it at or before the deadline; a timeout means
      the next reading was strictly past the deadline, and the elapsed time
      reported is the reading after it minus the start. Running out of input
      happens only as `Exhausted` allows, so a reading past the deadline with
      one more reading left always raises the timeout. */
  lemma {:induction false} PollClock(c: Config, vocab: Vocabulary, job: PollJob, replies: seq<Exchange>, clock: seq<int>)
    ensures Clocked(job, clock, Poll(c, vocab, job, replies, clock))
    ensures Exhausted(job, clock, Poll(c, vocab, job, replies, clock))
    decreases |replies|
  {
    PollRunsOut(c, vocab, job, replies, clock);
    var got := StatusCheck(c, job, replies);
    var r := RoundAfter(vocab, job, got, clock);
    CheckFacts(c, job, replies);
    PollUnroll(c, vocab, job, replies, clock);
    if r.Again? {
      PollClock(c, vocab, job, r.rest, r.clock);
      AgainClocked(vocab, job, got, clock, Poll(c, vocab, job, r.rest, r.clock));
    } else {
      StopClocked(vocab, job, got, clock);
    }
  }

  /** How polling can run out of input (see PollRunsOut). */
  predicate Exhausted(job: PollJob, clock: seq<int>, p: Polled)
  {
    var n := |Statuses(p.trace)|;
    var w := Count(p.trace, IsWait);
    p.result == Err(OutOfInput) ==>
      || (n == w && p.rest == [])
      || (&& n == w + 1 && TimeoutSet(job.timeout) && p.clock == []
          && (|clock| == w || (|clock| == w + 1 && clock[w] > Deadline(job))))
  }

  lemma StopExhausted(vocab: Vocabulary, job: PollJob, got: Exchanged, clock: seq<int>)
    requires Quiet(got.trace) && LoopFailure(got)
    requires got.result == Err(OutOfInput) ==> got.rest == []
    ensures var r := RoundAfter(vocab, job, got, clock);
      r.Stop? ==> Exhausted(job, clock, Polled(r.result, r.rest, r.clock, r.trace))
  {
    PassTrace(vocab, job, got, clock);
    PassProceeds(vocab, job, got, clock);
  }

  lemma AgainExhausted(vocab: Vocabulary, job: PollJob, got: Exchanged, clock: seq<int>, later: Polled)
    requires Quiet(got.trace) && LoopFailure(got)
    requires Exhausted(job, RoundAfter(vocab, job, got, clock).clock, later)
    ensures var r := RoundAfter(vocab, job, got, clock);
      r.Again? ==> Exhausted(job, clock, Resume(r.trace, later))
  {
    var r := RoundAfter(vocab, job, got, clock);
    if r.Again? {
      PassTrace(vocab, job, got, clock);
      PassClock(vocab, job, got, clock);
      PassEvents(vocab, job, got, clock);
      StatusesAppend(r.trace, later.trace);
      CountAppend(r.trace, later.trace, IsWait);
      if TimeoutSet(job.timeout) {
        assert forall i :: 0 <= i < |r.clock| ==> r.clock[i] == clock[i + 1];
      }
    }
  }

  /** Polling runs out of input in one of two ways only. Either a status
      check used up every exchange, after one sleep per status read; or,
      with a truthy timeout, the clock ran out where the pass after a running
      status was to read it: before the comparison with the deadline, or
      after a reading past the deadline when the message needs one more.
      So a running status with a reading at or before the deadline always
      leads to a sleep and another status check. */
  lemma {:induction false} PollRunsOut(c: Config, vocab: Vocabulary, job: PollJob, replies: seq<Exchange>, clock: seq<int>)
    ensures Exhausted(job, clock, Poll(c, vocab, job, replies, clock))
    decreases |replies|
  {
    var got := StatusCheck(c, job, replies);
    var r := RoundAfter(vocab, job, got, clock);
    CheckFacts(c, job, replies);
    PollUnroll(c, vocab, job, replies, clock);
    if r.Again? {
      PollRunsOut(c, vocab, job, r.rest, r.clock);
      AgainExhausted(vocab, job, got, clock, Poll(c, vocab, job, r.rest, r.clock));
    } else {
      StopExhausted(vocab, job, got, clock);
    }
  }

  /** Polling sends nothing but status checks of the submitted run: GETs of
      /anything/project/{project id}/run/{run id}. */
  lemma {:induction false} PollSendsOnlyStatusChecks(c: Config, vocab: Vocabulary, job: PollJob, replies: seq<Exchange>, clock: seq<int>)
    ensures SendsOnly(Poll(c, vocab, job, replies, clock).trace, BuildRequest(c, StatusCall(job.projectId, job.runId)))
    decreases |replies|
  {
    var req := BuildRequest(c, StatusCall(job.projectId, job.runId));
    var got := StatusCheck(c, job, replies);
    var r := RoundAfter(vocab, job, got, clock);
    CheckFacts(c, job, replies);
    PassSends(vocab, job, got, clock, req);
    PollUnroll(c, vocab, job, replies, clock);
    if r.Again? {
      var later := Poll(c, vocab, job, r.rest, r.clock);
      PollSendsOnlyStatusChecks(c, vocab, job, r.rest, r.clock);
      var t := r.trace + later.trace;
      assert forall i :: |r.trace| <= i < |t| ==> t[i] == later.trace[i - |r.trace|];
    }
  }

  // ---------------------------------------------------------------------
  // Reading the responses

  /** A submission response whose `data` field holds text that decodes to a
      document with a `runId` yields that run id, whatever else either of them
      holds. */
  lemma RunIdRoundTrip(
    fields: map<string, Json>, text: string, doc: map<string, Json>, runId: Json, loads: string -> Option<Json>)
    requires loads(text) == Some(JObj(doc["runId" := runId]))
    ensures RunIdOf(JObj(fields["data" := JStr(text)]), loads) == Ok(runId)
  {
  }

  /** A status response yields the `status` field of its `args`, whatever
      else either of them holds. */
  lemma StatusRoundTrip(fields: map<string, Json>, args: map<string, Json>, status: Json)
    ensures StatusOf(JObj(fields["args" := JObj(args["status" := status])])) == Ok(status)
  {
  }

  /** The status path of a run names it: two text run ids of one project
      share a status endpoint exactly when they are the same id. */
  lemma StatusPathNamesRun(projectId: string, a: string, b: string)
    ensures StatusCall(projectId, JStr(a)).endpoint == StatusCall(projectId, JStr(b)).endpoint <==> a == b
  {
    var stem := "/anything/project/" + projectId + "/run/";
    var ea := StatusCall(projectId, JStr(a)).endpoint;
    var eb := StatusCall(projectId, JStr(b)).endpoint;
    assert ea == stem + a && eb == stem + b;
    if ea == eb {
      assert |a| == |b|;
      forall i | 0 <= i < |a|
        ensures a[i] == b[i]
      {
        assert a[i] == ea[|stem| + i] == eb[|stem| + i] == b[i];
      }
    }
  }

  // ---------------------------------------------------------------------
  // Submitting and polling

  /** What a submission followed by polling sent (see SubmitThenPoll). */
  predicate SubmittedOnce(c: Config, projectId: string, loads: string -> Option<Json>, sub: Exchanged, sp: Polled)
  {
    var submit := BuildRequest(c, SubmitCall(projectId));
    && |sub.trace| <= |sp.trace| && sp.trace[..|sub.trace|] == sub.trace
    && (forall i :: 0 <= i < |sub.trace| && sp.trace[i].Sent? ==> sp.trace[i].req == submit)
    && (forall i :: |sub.trace| <= i < |sp.trace| && sp.trace[i].Sent? ==>
          && sub.result.Ok? && RunIdOf(sub.result.value, loads).Ok?
          && sp.trace[i].req == BuildRequest(c, StatusCall(projectId, RunIdOf(sub.result.value, loads).value)))
    && (forall i :: 0 <= i < |sp.trace| && sp.trace[i].Sent? && sp.trace[i].req.httpMethod == "POST" ==>
          i < |sub.trace|)
    && (sp.result.Ok? ==> sub.result.Ok? && sp.result.value.runResponse == sub.result.value)
  }

  /** Sends of the submission's request loop are all the submission. */
  lemma SubmissionFailed(
    c: Config, projectId: string, loads: string -> Option<Json>, sub: Exchanged, e: Failure, rest: seq<Exchange>, clock: seq<int>)
    requires SendsOnly(sub.trace, BuildRequest(c, SubmitCall(projectId)))
    ensures SubmittedOnce(c, projectId, loads, sub, Polled(Err(e), rest, clock, sub.trace))
  {
    assert sub.trace[..|sub.trace|] == sub.trace;
    assert BuildRequest(c, SubmitCall(projectId)).httpMethod == "POST";
  }

  lemma SubmissionPolled(
    c: Config, projectId: string, loads: string -> Option<Json>, sub: Exchanged, runId: Json, polled: Polled)
    requires SendsOnly(sub.trace, BuildRequest(c, SubmitCall(projectId)))
    requires sub.result.Ok? && RunIdOf(sub.result.value, loads) == Ok(runId)
    requires SendsOnly(polled.trace, BuildRequest(c, StatusCall(projectId, runId)))
    requires polled.result.Ok? ==> polled.result.value.runResponse == sub.result.value
    ensures SubmittedOnce(c, projectId, loads, sub, Resume(sub.trace, polled))
  {
    var t := sub.trace + polled.trace;
    assert t[..|sub.trace|] == sub.trace;
    assert forall i :: |sub.trace| <= i < |t| ==> t[i] == polled.trace[i - |sub.trace|];
    assert forall i :: 0 <= i < |sub.trace| ==> t[i] == sub.trace[i];
    assert BuildRequest(c, StatusCall(projectId, runId)).httpMethod == "GET";
  }

  /** The project is submitted by one request loop, before anything else;
      every request after it is a status check of the run id decoded from the
      submission response, so the submission is never repeated once it
      succeeded: every POST belongs to the submission. The output carries the
      submission response. */
  lemma SubmitThenPoll(
    c: Config, vocab: Vocabulary, loads: string -> Option<Json>, projectId: string,
    interval: int, timeout: Option<int>, replies: seq<Exchange>, clock: seq<int>)
    ensures SubmittedOnce(c, projectId, loads, Transmit(c, BuildRequest(c, SubmitCall(projectId)), replies, 0),
                          SubmitAndPoll(c, vocab, loads, projectId, interval, timeout, replies, clock))
  {
    var submit := BuildRequest(c, SubmitCall(projectId));
    var sub := Transmit(c, submit, replies, 0);
    TransmitSendsOnly(c, submit, replies, 0);
    if sub.result.Err? {
      SubmissionFailed(c, projectId, loads, sub, sub.result.error, sub.rest, clock);
    } else if RunIdOf(sub.result.value, loads).Err? {
      SubmissionFailed(c, projectId, loads, sub, RunIdOf(sub.result.value, loads).error, sub.rest, clock);
    } else if clock == [] {
      SubmissionFailed(c, projectId, loads, sub, OutOfInput, sub.rest, []);
    } else {
      var runId := RunIdOf(sub.result.value, loads).value;
      var job := PollJob(projectId, runId, sub.result.value, interval, timeout, clock[0]);
      PollSendsOnlyStatusChecks(c, vocab, job, sub.rest, clock[1..]);
      PollDecision(c, vocab, job, sub.rest, clock[1..]);
      SubmissionPolled(c, projectId, loads, sub, runId, Poll(c, vocab, job, sub.rest, clock[1..]));
    }
  }

  /** Submitting and polling end as the submission does when it fails or its
      run id cannot be read; otherwise, after the submission's events, they
      are exactly the polling loop of the submitted run started at the first
      clock reading, with everything proved about polling. */
  lemma PolledAfterSubmission(
    c: Config, vocab: Vocabulary, loads: string -> Option<Json>, projectId: string,
    interval: int, timeout: Option<int>, replies: seq<Exchange>, clock: seq<int>)
    ensures var sub := Transmit(c, BuildRequest(c, SubmitCall(projectId)), replies, 0);
      var sp := SubmitAndPoll(c, vocab, loads, projectId, interval, timeout, replies, clock);
      && (sub.result.Err? ==> sp == Polled(Err(sub.result.error), sub.rest, clock, sub.trace))
      && (sub.result.Ok? && RunIdOf(sub.result.value, loads).Err? ==>
            sp == Polled(Err(RunIdOf(sub.result.value, loads).error), sub.rest, clock, sub.trace))
      && (sub.result.Ok? && RunIdOf(sub.result.value, loads).Ok? && clock == [] ==>
            sp == Polled(Err(OutOfInput), sub.rest, [], sub.trace))
      && (sub.result.Ok? && RunIdOf(sub.result.value, loads).Ok? && clock != [] ==>
            var job := PollJob(projectId, RunIdOf(sub.result.value, loads).value, sub.result.value, interval, timeout, clock[0]);
            && |sub.trace| <= |sp.trace| && sp.trace[..|sub.trace|] == sub.trace
            && var polled := Polled(sp.result, sp.rest, sp.clock, sp.trace[|sub.trace|..]);
            && polled == Poll(c, vocab, job, sub.rest, clock[1..])
            && Decided(vocab, job, polled) && Paced(job, polled)
            && Clocked(job, clock[1..], polled) && Exhausted(job, clock[1..], polled))
  {
    var sub := Transmit(c, BuildRequest(c, SubmitCall(projectId)), replies, 0);
    if sub.result.Ok? && RunIdOf(sub.result.value, loads).Ok? && clock != [] {
      var job := PollJob(projectId, RunIdOf(sub.result.value, loads).value, sub.result.value, interval, timeout, clock[0]);
      var p := Poll(c, vocab, job, sub.rest, clock[1..]);
      PollDecision(c, vocab, job, sub.rest, clock[1..]);
      PollPacing(c, vocab, job, sub.rest, clock[1..]);
      PollClock(c, vocab, job, sub.rest, clock[1..]);
      PollRunsOut(c, vocab, job, sub.rest, clock[1..]);
      assert (sub.trace + p.trace)[|sub.trace|..] == p.trace;
      assert (sub.trace + p.trace)[..|sub.trace|] == sub.trace;
    }
  }
}

=== FILE: resources.dfy ===
/** The job client of demo_integration/resources.py: a request loop with a
    bounded retry budget, the two calls built on it (submit a project run,
    read a run's status), and the submit-then-poll state machine.

    Nothing here performs I/O. The HTTP library is replaced by a finite
    sequence of `Exchange`s, one consumed per attempt; the wall clock by a
    finite sequence of timestamps in milliseconds, one consumed per reading;
    `json.loads` by a function passed in. What the client does to the outside
    world (requests sent, sleeps) is recorded as a trace of `Event`s. When an
    injected sequence runs out before the call is over the result is
    `Err(OutOfInput)`: the program itself would go on waiting or looping. */
module Resources {
  import opened Wire

  /** The User-Agent header every attempt carries. */
  const UserAgent := "MyDagsterLibrary1.0"

  /** The Content-Type prefix that marks a reply as JSON. */
  const JsonContentType := "application/json"

  /** How a call of the client fails. The first two are raised by the request
      loop, the next two by indexing and decoding responses, the next three by
      the polling loop; the last one belongs to the model only. */
  datatype Failure =
    | RetriesExceeded                  // "Exceeded max number of retries."
    | UndecodableResponse              // "Unexpected response from API.Failed to decode to JSON."
    | MissingField(key: string)        // KeyError or TypeError from `doc[key]`
    | DataNotJsonText                  // json.loads rejected the string-encoded `data` field
    | UnexpectedStatus(status: Json)   // "Received an unexpected status from the API: ..."
    | RunFailed(name: string)          // "Project Run failed with status ..."
    | TimedOut(projectId: string, runId: Json, elapsed: int, lastStatus: string)
    | OutOfInput                       // an injected sequence ran out

  datatype Result<+T> = Ok(value: T) | Err(error: Failure)

  /** The settings a client is constructed with (retry delay in milliseconds). */
  datatype Config = Config(apiKey: string, baseUrl: string, maxRetries: int, retryDelay: int)

  /** The status vocabulary: which statuses are recognised, which one means
      success, and which ones end a run. */
  datatype Vocabulary = Vocabulary(valid: set<string>, complete: string, terminal: set<string>)

  /** What a successful run returns: the submission response and the status
      response that reported completion. */
  datatype MyOutput = MyOutput(runResponse: Json, statusResponse: Json)

  /** A call of the request loop before credentials are added. */
  datatype Call = Call(httpMethod: string, endpoint: string, data: Option<map<string, string>>)

  /** What the client does that the outside world can observe.
      Sent: one call of the HTTP library.
      Backoff: the sleep between two attempts of the request loop.
      StatusSeen: a status value read by the polling loop, with the status
      response it was read from (both are logged).
      PollWait: the sleep between two status checks. */
  datatype Event =
    | Sent(req: Request)
    | Backoff(delay: int)
    | StatusSeen(status: Json, response: Json)
    | PollWait(interval: int)

  // ---------------------------------------------------------------------
  // Building requests

  /** The headers of every attempt. */
  function AuthHeaders(apiKey: string): map<string, string>
  {
    map["Authorization" := "Bearer " + apiKey, "User-Agent" := UserAgent]
  }

  /** The request the HTTP library receives: GET sends the data as query
      parameters, POST as a JSON body, any other method form-encoded. */
  function BuildRequest(c: Config, call: Call): Request
  {
    var payload :=
      if call.httpMethod == "GET" then Params(call.data)
      else if call.httpMethod == "POST" then JsonBody(call.data)
      else FormBody(call.data);
    Request(call.httpMethod, c.baseUrl, call.endpoint, AuthHeaders(c.apiKey), payload)
  }

  /** Submitting a project run. The `runId` sent is the demo's fixed value. */
  function SubmitCall(projectId: string): Call
  {
    Call("POST", "/anything/" + projectId + "/run", Some(map["runId" := "123"]))
  }

  /** Reading the status of one run of a project. */
  function StatusCall(projectId: string, runId: Json): Call
  {
    Call("GET", "/anything/project/" + projectId + "/run/" + Text(runId),
         Some(map["status" := "COMPLETED"]))
  }

  // ---------------------------------------------------------------------
  // The request loop

  /** What the request loop does with one exchange.
      Retry: a RequestException, raised by the HTTP library or by
      raise_for_status on a 4xx/5xx reply; it uses up retry budget.
      Reissue: a reply whose Content-Type is not JSON; the loop neither
      returns nor raises and sends the request again.
      Garbled: a JSON reply whose body does not decode; fatal.
      Decoded: a JSON reply with its decoded body; returned. */
  datatype Verdict = Retry | Reissue | Garbled | Decoded(body: Json)

  function Classify(x: Exchange): (v: Verdict)
    ensures v == Retry <==> x.TransportError? || 400 <= x.statusCode < 600
    ensures v == Reissue <==>
      x.Response? && !(400 <= x.statusCode < 600) &&
      !(x.contentType.Some? && JsonContentType <= x.contentType.value)
    ensures v == Garbled <==>
      x.Response? && !(400 <= x.statusCode < 600) &&
      x.contentType.Some? && JsonContentType <= x.contentType.value && x.decoded.None?
    ensures v.Decoded? <==>
      x.Response? && !(400 <= x.statusCode < 600) &&
      x.contentType.Some? && JsonContentType <= x.contentType.value && x.decoded.Some?
    ensures v.Decoded? ==> x.decoded == Some(v.body)
  {
    match x
    case TransportError => Retry
    case Response(code, contentType, decoded) =>
      if 400 <= code < 600 then Retry
      else
        var header := if contentType.Some? then contentType.value else "";
        if !(JsonContentType <= header) then Reissue
        else if decoded.None? then Garbled
        else Decoded(decoded.value)
  }

  /** Outcome of the request loop: its result, the exchanges it left unused,
      and what it did. */
  datatype Exchanged = Exchanged(result: Result<Json>, rest: seq<Exchange>, trace: seq<Event>)

  function Ahead(t: seq<Event>, o: Exchanged): Exchanged
  {
    o.(trace := t + o.trace)
  }

  /** The request loop, sending `req` against the exchanges `replies`, having
      already used `retries` retries. */
  function Transmit(c: Config, req: Request, replies: seq<Exchange>, retries: int): (o: Exchanged)
    ensures |o.rest| <= |replies|
    ensures replies != [] ==> |o.rest| < |replies|
    ensures replies == [] ==> o.result == Err(OutOfInput) && o.trace == []
    decreases |replies|, 0
  {
    if replies == [] then Exchanged(Err(OutOfInput), [], [])
    else Attempt(c, req, Classify(replies[0]), replies[1..], retries)
  }

  /** One attempt of the request loop, whose exchange was judged `v`, with
      the exchanges `later` left for further attempts. */
  function Attempt(c: Config, req: Request, v: Verdict, later: seq<Exchange>, retries: int): (o: Exchanged)
    ensures |o.rest| <= |later|
    decreases |later|, 1
  {
    match v
    case Retry =>
      if retries == c.maxRetries then Exchanged(Err(RetriesExceeded), later, [Sent(req)])
      else Ahead([Sent(req), Backoff(c.retryDelay)], Transmit(c, req, later, retries + 1))
    case Reissue => Ahead([Sent(req)], Transmit(c, req, later, retries))
    case Garbled => Exchanged(Err(UndecodableResponse), later, [Sent(req)])
    case Decoded(body) => Exchanged(Ok(body), later, [Sent(req)])
  }

  // ---------------------------------------------------------------------
  // Reading the responses

  /** The run id of a submission response: its `data` field holds a JSON
      document as a string, and the id is that document's `runId`. */
  function RunIdOf(runResponse: Json, loads: string -> Option<Json>): (r: Result<Json>)
    ensures r.Err? ==> r.error in {MissingField("data"), DataNotJsonText, MissingField("runId")}
    ensures r.Ok? ==> runResponse.JObj? && "data" in runResponse.fields && runResponse.fields["data"].JStr?
  {
    match Field(runResponse, "data")
    case None => Err(MissingField("data"))
    case Some(data) =>
      if !data.JStr? then Err(DataNotJsonText)
      else match loads(data.s)
        case None => Err(DataNotJsonText)
        case Some(doc) =>
          match Field(doc, "runId")
          case None => Err(MissingField("runId"))
          case Some(runId) => Ok(runId)
  }

  /** The status value of a status response: `args.status`. */
  function StatusOf(statusResponse: Json): (r: Result<Json>)
    ensures r.Err? ==> r.error in {MissingField("args"), MissingField("status")}
    ensures r.Ok? ==> statusResponse.JObj? && "args" in statusResponse.fields
  {
    match Field(statusResponse, "args")
    case None => Err(MissingField("args"))
    case Some(args) =>
      match Field(args, "status")
      case None => Err(MissingField("status"))
      case Some(status) => Ok(status)
  }

  // ---------------------------------------------------------------------
  // The polling loop

  /** How the polling loop judges one status value. */
  datatype Judgement = Invalid | Completed | Failed(name: string) | Running(name: string)

  /** The checks of the polling loop, in their order: recognised at all, then
      complete, then terminal. Completion wins over terminal membership. */
  function Judge(vocab: Vocabulary, status: Json): (j: Judgement)
    ensures j == Invalid <==> !(status.JStr? && status.s in vocab.valid)
    ensures j == Completed <==> status == JStr(vocab.complete) && vocab.complete in vocab.valid
    ensures j.Failed? <==>
      status.JStr? && status.s in vocab.valid && status.s != vocab.complete && status.s in vocab.terminal
    ensures j.Running? <==>
      status.JStr? && status.s in vocab.valid && status.s != vocab.complete && status.s !in vocab.terminal
    ensures j.Failed? || j.Running? ==> status == JStr(j.name)
  {
    if !(status.JStr? && status.s in vocab.valid) then Invalid
    else if status.s == vocab.complete then Completed
    else if status.s in vocab.terminal then Failed(status.s)
    else Running(status.s)
  }

  /** Python truthiness of the optional poll timeout: None and 0 both mean
      that the loop never times out. */
  predicate TimeoutSet(timeout: Option<int>)
  {
    timeout.Some? && timeout.value != 0
  }

  /** What the polling loop keeps fixed: the project, the run id, the
      submission response, the cadence, the timeout and the start reading. */
  datatype PollJob = PollJob(
    projectId: string,
    runId: Json,
    runResponse: Json,
    interval: int,
    timeout: Option<int>,
    start: int)

  /** Outcome of polling: the result, the unused exchanges and clock readings,
      and what was done. */
  datatype Polled = Polled(result: Result<MyOutput>, rest: seq<Exchange>, clock: seq<int>, trace: seq<Event>)

  function Resume(t: seq<Event>, o: Polled): Polled
  {
    o.(trace := t + o.trace)
  }

  /** One pass of the polling loop: either it ends the loop with a result, or
      it asks for another pass with what is left of the exchanges and the
      clock. */
  datatype Round =
    | Stop(result: Result<MyOutput>, rest: seq<Exchange>, clock: seq<int>, trace: seq<Event>)
    | Again(rest: seq<Exchange>, clock: seq<int>, trace: seq<Event>)

  /** The pass that follows a status check whose request loop ended in `got`. */
  function RoundAfter(vocab: Vocabulary, job: PollJob, got: Exchanged, clock: seq<int>): (r: Round)
    ensures r.Again? ==> got.result.Ok?
    ensures r.rest == got.rest && |r.clock| <= |clock|
  {
    if got.result.Err? then Stop(Err(got.result.error), got.rest, clock, got.trace)
    else
      var response := got.result.value;
      match StatusOf(response)
      case Err(e) => Stop(Err(e), got.rest, clock, got.trace)
      case Ok(status) =>
        var seen := got.trace + [StatusSeen(status, response)];
        match Judge(vocab, status)
        case Invalid => Stop(Err(UnexpectedStatus(status)), got.rest, clock, seen)
        case Completed => Stop(Ok(MyOutput(job.runResponse, response)), got.rest, clock, seen)
        case Failed(name) => Stop(Err(RunFailed(name)), got.rest, clock, seen)
        case Running(name) =>
          if !TimeoutSet(job.timeout) then Again(got.rest, clock, seen + [PollWait(job.interval)])
          else if clock == [] then Stop(Err(OutOfInput), got.rest, [], seen)
          else if clock[0] > job.start + job.timeout.value then
            if |clock| < 2 then Stop(Err(OutOfInput), got.rest, [], seen)
            else Stop(Err(TimedOut(job.projectId, job.runId, clock[1] - job.start, name)), got.rest, clock[2..], seen)
          else Again(got.rest, clock[1..], seen + [PollWait(job.interval)])
  }

  /** The status check of one pass. */
  function StatusCheck(c: Config, job: PollJob, replies: seq<Exchange>): Exchanged
  {
    Transmit(c, BuildRequest(c, StatusCall(job.projectId, job.runId)), replies, 0)
  }

  /** The polling loop from one status check onwards. */
  function Poll(c: Config, vocab: Vocabulary, job: PollJob, replies: seq<Exchange>, clock: seq<int>): (p: Polled)
    ensures |p.rest| <= |replies| && |p.clock| <= |clock|
    ensures replies == [] ==> p == Polled(Err(OutOfInput), [], clock, [])
    decreases |replies|
  {
    match RoundAfter(vocab, job, StatusCheck(c, job, replies), clock)
    case Stop(result, rest, clockLeft, trace) => Polled(result, rest, clockLeft, trace)
    case Again(rest, clockLeft, trace) => Resume(trace, Poll(c, vocab, job, rest, clockLeft))
  }

  /** One pass of polling after `prefix`: a pass that stops ends it, a pass
      that goes on is followed by the rest of the polling. */
  lemma PollStep(c: Config, vocab: Vocabulary, job: PollJob, replies: seq<Exchange>, clock: seq<int>, prefix: seq<Event>)
    ensures var r := RoundAfter(vocab, job, StatusCheck(c, job, replies), clock);
      && (r.Stop? ==> Resume(prefix, Poll(c, vocab, job, replies, clock))
                      == Polled(r.result, r.rest, r.clock, prefix + r.trace))
      && (r.Again? ==> Resume(prefix, Poll(c, vocab, job, replies, clock))
                       == Resume(prefix + r.trace, Poll(c, vocab, job, r.rest, r.clock)))
  {
  }

  /** Submit once, read the run id, take the start reading, then poll. */
  function SubmitAndPoll(
    c: Config, vocab: Vocabulary, loads: string -> Option<Json>, projectId: string,
    interval: int, timeout: Option<int>, replies: seq<Exchange>, clock: seq<int>): (p: Polled)
    ensures |p.rest| <= |replies| && |p.clock| <= |clock|
    ensures replies == [] ==> p == Polled(Err(OutOfInput), [], clock, [])
  {
    var sub := Transmit(c, BuildRequest(c, SubmitCall(projectId)), replies, 0);
    if sub.result.Err? then Polled(Err(sub.result.error), sub.rest, clock, sub.trace)
    else
      match RunIdOf(sub.result.value, loads)
      case Err(e) => Polled(Err(e), sub.rest, clock, sub.trace)
      case Ok(runId) =>
        if clock == [] then Polled(Err(OutOfInput), sub.rest, [], sub.trace)
        else
          var job := PollJob(projectId, runId, sub.result.value, interval, timeout, clock[0]);
          Resume(sub.trace, Poll(c, vocab, job, sub.rest, clock[1..]))
  }

  // ---------------------------------------------------------------------
  // The client

  /** The client object. Its fields are set once, by the constructor. */
  class MyResource {
    const apiKey: string
    const apiBaseUrl: string
    const requestMaxRetries: int
    const requestRetryDelay: int

    constructor (apiKey: string, baseUrl: string, requestMaxRetries: int := 3, requestRetryDelay: int := 250)
      ensures Settings() == Config(apiKey, baseUrl, requestMaxRetries, requestRetryDelay)
    {
      this.apiKey := apiKey;
      this.apiBaseUrl := baseUrl;
      this.requestMaxRetries := requestMaxRetries;
      this.requestRetryDelay := requestRetryDelay;
    }

    function Settings(): Config
    {
      Config(apiKey, apiBaseUrl, requestMaxRetries, requestRetryDelay)
    }

    /** One logical request, retried on RequestExceptions up to the budget. */
    method MakeRequest(httpMethod: string, endpoint: string, data: Option<map<string, string>>, replies: seq<Exchange>)
      returns (result: Result<Json>, rest: seq<Exchange>, trace: seq<Event>)
      ensures Exchanged(result, rest, trace)
           == Transmit(Settings(), BuildRequest(Settings(), Call(httpMethod, endpoint, data)), replies, 0)
    {
      var config := Settings();
      var request := BuildRequest(config, Call(httpMethod, endpoint, data));
      var numRetries := 0;
      rest, trace := replies, [];
      while true
        invariant Transmit(config, request, replies, 0)
               == Ahead(trace, Transmit(config, request, rest, numRetries))
        decreases |rest|
      {
        if rest == [] {
          return Err(OutOfInput), rest, trace;
        }
        var reply := rest[0];
        ghost var step := Transmit(config, request, rest, numRetries);
        rest := rest[1..];
        trace := trace + [Sent(request)];
        var failed := reply.TransportError? || 400 <= reply.statusCode < 600;
        if !failed {
          var header := if reply.contentType.Some? then reply.contentType.value else "";
          assert Classify(reply) == (if JsonContentType <= header then (if reply.decoded.None? then Garbled else Decoded(reply.decoded.value)) else Reissue);
          if JsonContentType <= header {
            if reply.decoded.None? {
              assert step == Exchanged(Err(UndecodableResponse), rest, [Sent(request)]);
              return Err(UndecodableResponse), rest, trace;
            }
            assert step == Exchanged(Ok(reply.decoded.value), rest, [Sent(request)]);
            return Ok(reply.decoded.value), rest, trace;
          }
          assert step == Ahead([Sent(request)], Transmit(config, request, rest, numRetries));
        } else {
          assert Classify(reply) == Retry;
          if numRetries == requestMaxRetries {
            assert step == Exchanged(Err(RetriesExceeded), rest, [Sent(request)]);
            break;
          }
          assert step == Ahead([Sent(request), Backoff(requestRetryDelay)], Transmit(config, request, rest, numRetries + 1));
          numRetries := numRetries + 1;
          trace := trace + [Backoff(requestRetryDelay)];
        }
      }
      result := Err(RetriesExceeded);
    }

    /** Submit a run of `projectId`. */
    method RunProject(projectId: string, replies: seq<Exchange>)
      returns (result: Result<Json>, rest: seq<Exchange>, trace: seq<Event>)
      ensures Exchanged(result, rest, trace)
           == Transmit(Settings(), BuildRequest(Settings(), SubmitCall(projectId)), replies, 0)
    {
      var call := SubmitCall(projectId);
      result, rest, trace := MakeRequest(call.httpMethod, call.endpoint, call.data, replies);
    }

    /** Read the status of run `runId` of `projectId`. */
    method RunStatus(projectId: string, runId: Json, replies: seq<Exchange>)
      returns (result: Result<Json>, rest: seq<Exchange>, trace: seq<Event>)
      ensures Exchanged(result, rest, trace)
           == Transmit(Settings(), BuildRequest(Settings(), StatusCall(projectId, runId)), replies, 0)
    {
      var call := StatusCall(projectId, runId);
      result, rest, trace := MakeRequest(call.httpMethod, call.endpoint, call.data, replies);
    }

    /** Submit a run, then poll its status until it completes, fails, reports
        an unknown status or times out. */
    method RunAndPoll(
      vocab: Vocabulary, loads: string -> Option<Json>, projectId: string,
      pollInterval: int, pollTimeout: Option<int>, replies: seq<Exchange>, clock: seq<int>)
      returns (result: Result<MyOutput>, rest: seq<Exchange>, restClock: seq<int>, trace: seq<Event>)
      ensures Polled(result, rest, restClock, trace)
           == SubmitAndPoll(Settings(), vocab, loads, projectId, pollInterval, pollTimeout, replies, clock)
    {
      var submitted;
      submitted, rest, trace := RunProject(projectId, replies);
      if submitted.Err? {
        return Err(submitted.error), rest, clock, trace;
      }
      var runResponse := submitted.value;
      var decoded := RunIdOf(runResponse, loads);
      if decoded.Err? {
        return Err(decoded.error), rest, clock, trace;
      }
      var runId := decoded.value;
      if clock == [] {
        return Err(OutOfInput), rest, [], trace;
      }
      var job := PollJob(projectId, runId, runResponse, pollInterval, pollTimeout, clock[0]);
      result, rest, restClock, trace := AwaitRun(vocab, job, rest, clock[1..], trace);
    }

    /** The polling loop of a submitted run, after the events `prefix`. */
    method AwaitRun(vocab: Vocabulary, job: PollJob, replies: seq<Exchange>, clock: seq<int>, prefix: seq<Event>)
      returns (result: Result<MyOutput>, rest: seq<Exchange>, restClock: seq<int>, trace: seq<Event>)
      ensures Polled(result, rest, restClock, trace) == Resume(prefix, Poll(Settings(), vocab, job, replies, clock))
    {
      ghost var config := Settings();
      rest, restClock, trace := replies, clock, prefix;
      while true
        invariant Resume(prefix, Poll(config, vocab, job, replies, clock))
               == Resume(trace, Poll(config, vocab, job, rest, restClock))
        decreases |rest|
      {
        PollStep(config, vocab, job, rest, restClock, trace);
        var checked, sent;
        checked, rest, sent := RunStatus(job.projectId, job.runId, rest);
        // The checks of one pass, in their order: the status read, unknown,
        // complete, terminal, then the timeout and the sleep.
        match RoundAfter(vocab, job, Exchanged(checked, rest, sent), restClock)
        case Stop(r, _, clockLeft, t) =>
          return r, rest, clockLeft, trace + t;
        case Again(_, clockLeft, t) =>
          restClock, trace := clockLeft, trace + t;
      }
    }
  }
}

=== FILE: wire.dfy ===
/** Values exchanged with the libraries the job client calls: decoded JSON
    documents, what one call of the HTTP library can yield, and the request
    handed to it. None of the libraries is modelled; these are only the shapes
    of what goes in and comes out. */
module Wire {

  datatype Option<+T> = None | Some(value: T)

  /** A decoded JSON value. Strings and objects are kept apart because the
      client indexes objects and compares strings; any other value (a number,
      a boolean, null, an array) is carried with the text that Python's str()
      gives it. */
  datatype Json =
    | JStr(s: string)
    | JObj(fields: map<string, Json>)
    | JAtom(text: string)

  /** The text an f-string substitutes for a JSON value. A JSON object is
      rendered as the empty string (Python would print its dict repr). */
  function Text(v: Json): string
  {
    match v
    case JStr(s) => s
    case JAtom(t) => t
    case JObj(_) => ""
  }

  /** `doc[key]` on a decoded document: only an object that has the key can be
      indexed; anything else raises KeyError or TypeError in Python. */
  function Field(doc: Json, key: string): Option<Json>
  {
    if doc.JObj? && key in doc.fields then Some(doc.fields[key]) else None
  }

  /** What one call of the HTTP library yields.
      TransportError: the call itself raised a RequestException (connection
      refused, DNS failure, timeout, too many redirects, ...).
      Response: a reply arrived, with its status code, its Content-Type header
      if it had one, and the result of decoding its body as JSON (None when
      decoding fails). */
  datatype Exchange =
    | TransportError
    | Response(statusCode: int, contentType: Option<string>, decoded: Option<Json>)

  /** How the request data travels: as query parameters, as a JSON body, or
      form-encoded. `None` is a call without data. */
  datatype Payload =
    | Params(query: Option<map<string, string>>)
    | JsonBody(doc: Option<map<string, string>>)
    | FormBody(form: Option<map<string, string>>)

  /** One call of the HTTP library. The URL is kept as the base and the
      endpoint it is joined from. */
  datatype Request = Request(
    httpMethod: string,
    baseUrl: string,
    endpoint: string,
    headers: map<string, string>,
    payload: Payload)
}
